=== FILE: README.md ===
# Accounting sync: a verified model of the reconciliation engine

This project models the core of the `sync_accounting` management command of
the Peace Corps donation site, and proves properties of the model. The
command reads an accounting export one row at a time. Each row describes a
project, country fund, memorial fund, sector fund or other campaign, and is
processed in one of two ways:

- if an account with the row's code exists, it is *updated*: donations at or
  before the row's "last updated from pay.gov" watermark are deleted, and a
  project account's `current` amount is recomputed as goal minus balance;
- otherwise the row is *classified* by `account_type` and a new account is
  created. It is named after the project, with ` (code)` appended when that
  name is already taken. A project row is *skipped*, with nothing saved, when
  its country or its sector ("issue") campaign cannot be found; otherwise it
  gets its account and a project wired to that country and campaign. Any
  other row gets its account and a campaign, and a sector row also gets a
  sector mapping.

The model is functional. The database is an immutable `Store` (accounts by
code, campaigns, sector mappings, projects, countries). Each row is a
transformer of the store and of the issue cache, and ends `Created`,
`Updated`, `Skipped` or `Aborted`. An abort stands for an exception that ends
the command; whatever was saved before it stays saved.

Modules, leaf first:

- `Wrappers`: `Option` and a first-match search.
- `Text`: the Python string operations the engine uses. These are
  `startswith`, `endswith`, `in`, `upper`, `strip` and `replace(",", "")`.
  Whitespace is Python's `isspace` on ISO-8859-1 characters.
- `Codec`: `cents_from` around an abstract dollar parser, and an abstract
  date parser.
- `Ledger`: the row, the entities, the store, and the four persistence
  operations.
- `Classifier`: `account_type` as an ordered list of rules.
- `IssueCache`: the sector-mapping cache.
- `Reconcile`: `create_account`, `create_pcpp`, `update_account`, the
  per-row dispatch and the run.
- `ReconcileProperties` and `RunProperties`: what one row and a whole run
  guarantee.

All source paths below are in `peacecorps/peacecorps/management/commands/sync_accounting.py`.

## Model

| member | source | states |
|---|---|---|
| Text.ContainsSpec | peacecorps/peacecorps/management/commands/sync_accounting.py:119 | the substring scan behind `'MEMORIAL' in name` answers true exactly when the word occurs at some position of the name |
| Text.UpperSpec | peacecorps/peacecorps/management/commands/sync_accounting.py:119 | `upper()` keeps the length and maps each character on its own (ASCII letters to capitals, everything else unchanged) |
| Text.TrimStartSpec | peacecorps/peacecorps/management/commands/sync_accounting.py:90 | stripping on the left removes a whitespace prefix and nothing more, and what remains does not start with whitespace |
| Text.TrimEndSpec | peacecorps/peacecorps/management/commands/sync_accounting.py:90 | stripping on the right removes a whitespace suffix and nothing more, and what remains does not end with whitespace |
| Text.StripSpec | peacecorps/peacecorps/management/commands/sync_accounting.py:90 | `strip()` returns the infix of its argument between a whitespace prefix and a whitespace suffix, and that infix starts and ends with non-whitespace |
| Text.TrimStartPadded | peacecorps/peacecorps/management/commands/sync_accounting.py:27 | extra leading whitespace does not change the left-stripped text |
| Text.TrimEndPadded | peacecorps/peacecorps/management/commands/sync_accounting.py:27 | extra trailing whitespace does not change the right-stripped text |
| Text.TrimStartKeepsTail | peacecorps/peacecorps/management/commands/sync_accounting.py:27 | left-stripping keeps trailing whitespace, unless the whole text is whitespace and so vanishes |
| Text.StripPadded | peacecorps/peacecorps/management/commands/sync_accounting.py:27 | `strip()` gives the same result however much whitespace surrounds the text |
| Text.RemoveCommasSpec | peacecorps/peacecorps/management/commands/sync_accounting.py:27 | `replace(",", "")` deletes every comma and keeps every other character with its multiplicity, so the text shrinks by exactly its number of commas, no comma is left, and comma-free text comes back as it was |
| Text.RemoveCommasAppend | peacecorps/peacecorps/management/commands/sync_accounting.py:27 | removing commas works piecewise over a concatenation, so the other characters keep their order |
| Codec.CentsFromIgnoresCommas | peacecorps/peacecorps/management/commands/sync_accounting.py:24-30 | a thousands separator anywhere in a money field does not change the amount read |
| Codec.CentsFromIgnoresPadding | peacecorps/peacecorps/management/commands/sync_accounting.py:24-30 | whitespace around a money field does not change the amount read |
| Ledger.SaveAccount | peacecorps/peacecorps/management/commands/sync_accounting.py:61 | saving an account inserts it or overwrites the one with its code. Every other account, campaign, mapping and project is untouched, and the store stays well-formed and extends the old one |
| Ledger.CreateCampaign | peacecorps/peacecorps/management/commands/sync_accounting.py:62-64 | creating a campaign appends exactly that campaign and keeps the store well-formed |
| Ledger.CreateMapping | peacecorps/peacecorps/management/commands/sync_accounting.py:67 | inserting a sector mapping fails exactly when the key is already mapped (it is the primary key); otherwise it adds that one key and changes nothing else |
| Ledger.CreateProject | peacecorps/peacecorps/management/commands/sync_accounting.py:91-96 | creating a project appends exactly that project, and the store stays well-formed and extends the old one |
| Classifier.Classify | peacecorps/peacecorps/management/commands/sync_accounting.py:111-127 | the category is that of the first rule that holds, and OTHER exactly when no rule holds |
| Classifier.ClassifyCountry | peacecorps/peacecorps/management/commands/sync_accounting.py:114-117 | a row is COUNTRY exactly when its code ends in `-CFD` or it is the "<country> COUNTRY FUND" row with sector `None` and request `0`, whatever its other fields say |
| Classifier.ClassifyMemorial | peacecorps/peacecorps/management/commands/sync_accounting.py:118-120 | a row is MEMORIAL exactly when it is not a country fund, its code starts with `SPF-`, and MEMORIAL occurs in its upper-cased name |
| Classifier.ClassifySector | peacecorps/peacecorps/management/commands/sync_accounting.py:121-124 | a row is SECTOR exactly when it is neither a country fund nor a memorial, its code starts with `SPF-`, and either its country is `D/OSP/GGM` or its name equals the volunteer name ignoring case |
| Classifier.ClassifyProjectOrOther | peacecorps/peacecorps/management/commands/sync_accounting.py:125-127 | among the remaining rows, PROJECT exactly when the code starts with a digit or `-` or a community contribution is given; OTHER exactly when no rule holds |
| IssueCache.Seed | peacecorps/peacecorps/management/commands/sync_accounting.py:37-39 | the new cache knows every stored sector mapping, and each of its entries is the store's mapping |
| IssueCache.Find | peacecorps/peacecorps/management/commands/sync_accounting.py:41-47 | a hit answers from the cache and changes nothing. A miss on an unmapped key changes nothing and answers absent. A miss on a mapped key caches that one entry and returns it. A cache that agrees with the store keeps agreeing, and always answers what the store says |
| IssueCache.AgreesAfterGrowth | peacecorps/peacecorps/management/commands/sync_accounting.py:41-47 | mappings added to the store later never make a cached entry wrong |
| IssueCache.MissThenFound | peacecorps/peacecorps/management/commands/sync_accounting.py:42-46 | absence is never cached: after a miss, a mapping created under the same key is found by the next lookup |
| Reconcile.FindCountry | peacecorps/peacecorps/management/commands/sync_accounting.py:74 | the country lookup returns the first country whose name equals the row's ignoring case, and nothing exactly when no country matches |
| Reconcile.VolunteerNameSpec | peacecorps/peacecorps/management/commands/sync_accounting.py:88-90 | without the state prefix the volunteer name is kept as given; with it, the result is the text after the prefix between surrounding whitespace, with non-whitespace at both ends |
| Reconcile.PruneSpec | peacecorps/peacecorps/management/commands/sync_accounting.py:103 | after deleting donations at or before the watermark, every remaining donation is later than it, and each later donation is kept as many times as it occurred |
| Reconcile.PruneAppend | peacecorps/peacecorps/management/commands/sync_accounting.py:103 | deletion works piecewise, so the surviving donations keep their order |
| Reconcile.PruneKeepsLater | peacecorps/peacecorps/management/commands/sync_accounting.py:103 | when every donation is later than the watermark, none is deleted |
| Reconcile.PruneIdempotent | peacecorps/peacecorps/management/commands/sync_accounting.py:103 | deleting at the same watermark a second time deletes nothing more |
| Reconcile.CreatePcpp | peacecorps/peacecorps/management/commands/sync_accounting.py:70-96 | the row is skipped, with the store unchanged, exactly when no country matches or the sector has no mapping. A resolved row aborts, before anything is saved, exactly when one of its three amounts is unreadable, and is created exactly when all three parse. It is created exactly when the account (current = goal - balance, goal, contribution from COMM_CONTRIB or "0") and its project (the first country matching the row's ignoring case, overflow into the issue's account, the issue campaign, stripped volunteer name) are saved |
| Reconcile.SaveProject | peacecorps/peacecorps/management/commands/sync_accounting.py:81-96 | a resolved project row whose amounts parse saves exactly its account and one project wired to the given country (the first whose name matches the row's ignoring case), the issue's account and the issue campaign, and adds no campaign or mapping |
| Reconcile.CreateAccount | peacecorps/peacecorps/management/commands/sync_accounting.py:50-67 | creating never updates; a skip leaves the store unchanged; a creation adds exactly the row's code to the accounts |
| Reconcile.CreateFund | peacecorps/peacecorps/management/commands/sync_accounting.py:57-67 | a non-project row saves exactly one account with no money fields and one campaign of the same name and category owning it. A sector row also maps its sector to that campaign, and this fails with a duplicate-mapping abort exactly when the sector is already mapped, after the account and campaign were saved |
| Reconcile.PruneDonations | peacecorps/peacecorps/management/commands/sync_accounting.py:101-103 | with a watermark, exactly the donations at or before it are deleted; without one, none are; nothing else about the account changes |
| Reconcile.RefreshAccount | peacecorps/peacecorps/management/commands/sync_accounting.py:99-108 | an update never changes code, name, category, goal or contribution. An unreadable watermark aborts with nothing changed. Otherwise donations are pruned at the watermark, and only a project account gets current = goal - balance; a non-project account's current is kept. It succeeds exactly when the watermark and, for a project, both amounts are readable |
| Reconcile.UpdateAccount | peacecorps/peacecorps/management/commands/sync_accounting.py:99-108 | the refreshed account replaces the stored one, even when an amount aborts after the deletion; the cache and everything else in the store are untouched |
| Reconcile.Step | peacecorps/peacecorps/management/commands/sync_accounting.py:145-154 | a row whose code exists is updated or aborts and never adds an account: the stored account is replaced by its refresh (pruned donations, recomputed `current`) and nothing else changes; an unseen code is never updated, and a creation adds exactly that code |
| Reconcile.RunFrom | peacecorps/peacecorps/management/commands/sync_accounting.py:144-154 | processing rows in order keeps the store well-formed, never deletes or re-identifies an account, and yields at most one outcome per row |
| Reconcile.Sync | peacecorps/peacecorps/management/commands/sync_accounting.py:139-154 | a whole run from a seeded issue cache keeps the store well-formed and only extends it |
| ReconcileProperties.NewAccountName | peacecorps/peacecorps/management/commands/sync_accounting.py:54-57 | a new account has the row's code and is named after the project, with " (code)" appended exactly when that name is already in use; this holds even when a later mapping insert aborts |
| ReconcileProperties.PcppAccountName | peacecorps/peacecorps/management/commands/sync_accounting.py:57-59 | a project account is saved under the row's code with the name chosen for it |
| ReconcileProperties.ProjectCreation | peacecorps/peacecorps/management/commands/sync_accounting.py:53-59 | a new PROJECT row is handed to `create_pcpp` under the chosen name: it is skipped exactly when its country or sector does not resolve, and created exactly when its account and project are saved as described for `Reconcile.CreatePcpp` |
| ReconcileProperties.NonProjectCreation | peacecorps/peacecorps/management/commands/sync_accounting.py:58-67 | a non-project row adds one account of its category and one campaign of that type owning it, and no project. A sector mapping to that campaign is added exactly for SECTOR rows, and the only abort is a SECTOR row whose sector is already mapped |
| ReconcileProperties.RefreshUpToDate | peacecorps/peacecorps/management/commands/sync_accounting.py:99-108 | refreshing an account that already reflects the row (no donation at or before the watermark, current already goal - balance) succeeds and changes nothing |
| ReconcileProperties.RefreshMakesUpToDate | peacecorps/peacecorps/management/commands/sync_accounting.py:99-108 | a successful refresh leaves an account that already reflects the row |
| ReconcileProperties.UpdateOfCurrentAccountIsNoOp | peacecorps/peacecorps/management/commands/sync_accounting.py:99-108 | updating an account that already reflects the row leaves the whole store as it was |
| ReconcileProperties.UpdateTwiceIsNoOp | peacecorps/peacecorps/management/commands/sync_accounting.py:99-108 | the update is idempotent: a second update with the same row succeeds and changes nothing |
| ReconcileProperties.UpdateAfterProjectIsNoOp | peacecorps/peacecorps/management/commands/sync_accounting.py:81-86 | updating a project account right after creating it from the same row changes nothing, since current was already goal - balance and it has no donations |
| ReconcileProperties.UpdateAfterCampaignIsNoOp | peacecorps/peacecorps/management/commands/sync_accounting.py:57-64 | updating a non-project account right after creating it from the same row changes nothing |
| ReconcileProperties.KnownCodeIsUpdated | peacecorps/peacecorps/management/commands/sync_accounting.py:145-151 | a row whose code is stored goes through `update_account`: its outcome is the refresh's, the account is replaced by the refreshed one, and the cache and every other table are unchanged |
| ReconcileProperties.UnseenCodeIsCreated | peacecorps/peacecorps/management/commands/sync_accounting.py:152-154 | a row whose code is not stored goes through `create_account`, whatever it creates, skips or aborts on |
| ReconcileProperties.ReapplyRowIsNoOp | peacecorps/peacecorps/management/commands/sync_accounting.py:145-154 | processing a row again right after it created or updated its account takes the update path and leaves the store as it was |
| ReconcileProperties.SameNameSecondGetsSuffix | peacecorps/peacecorps/management/commands/sync_accounting.py:54-57 | when two new rows with the same project name and different codes are both created, both accounts are kept and the second is named with its code appended |
| ReconcileProperties.SuffixedNameCanCollide | peacecorps/peacecorps/management/commands/sync_accounting.py:54-57 | the suffix is appended once and not re-checked: if the suffixed name is also in use, the new account shares its name with another account |
| ReconcileProperties.CollisionExample | peacecorps/peacecorps/management/commands/sync_accounting.py:54-57 | a concrete store with accounts "Well" and "Well (P9)", where a new OTHER row "Well" with code P9 gets a name another account already has |
| RunProperties.RunStopsAtFirstAbort | peacecorps/peacecorps/management/commands/sync_accounting.py:144-154 | no row after an abort is processed: only the last outcome can be an abort, and a run that did not reach every row ends with one |
| RunProperties.KnownCodeIsNeverCreated | peacecorps/peacecorps/management/commands/sync_accounting.py:145-151 | every row whose code is already an account takes the update path, for the whole rest of the run |
| RunProperties.CreatedAtMostOnce | peacecorps/peacecorps/management/commands/sync_accounting.py:145-154 | a run never creates the same code twice: every later row with a created row's code is an update |
| RunProperties.RunKeepsEveryCode | peacecorps/peacecorps/management/commands/sync_accounting.py:144-154 | every row that was created or updated has its code among the accounts at the end of the run |
| RunProperties.SecondRunOnlyUpdates | peacecorps/peacecorps/management/commands/sync_accounting.py:144-154 | running the same rows again on the result of a run updates (or aborts on) every row the first run created or updated, and never creates one |

## Appending the code does not guarantee a unique name

When an account already has the project name, lines 55-56 append
` (code)` once to avoid the clash, and never check the new name again. If
the suffixed name is itself in use, the new account shares it with another
account. The model follows the code.
`ReconcileProperties.SuffixedNameCanCollide` states this for any store, and
`ReconcileProperties.CollisionExample` gives a concrete instance. Whether
the database would reject such a name depends on its own rules for names,
and `peacecorps/models.py` is not part of this model.

## Left out

- `cents_from` is modelled only in part. The dollar text goes through Python's binary `float` and `round` (lines 29-30), which the model replaces by an abstract `parseDollars` parameter. The comma removal and stripping before it (line 27) are modelled.
- `datetime_from` (lines 13-21) needs `strptime` and the pytz US/Eastern time zone with its DST rules. It is an abstract `parseDate` parameter that returns an integer instant; instants are only compared with `<=`.
- A parse failure in either parser raises an exception that ends the command. This is modelled as the run ending with an `Aborted` outcome; the exception types are not modelled.
- Reading the CSV file with the ISO-8859-1 encoding is not modelled: rows are given as a sequence of records.
- Logging (lines 77-79, 148-150, 153) is not modelled. The update log line reads a `PROJ_BALANCE` column that the rest of the code never uses; the model assumes every column the code reads is present.
- The `CommandError` raised when the file argument is missing, and the `BaseCommand` plumbing (lines 130-138 and 140-142), are not modelled.
- `upper()` and the `iexact` lookup are modelled on ASCII letters only. Python's full Unicode case mapping is not modelled (for example, `ß` upper-cases to `SS`).
- Transactions and crashes are not modelled. Each save takes effect at once, as in Django's autocommit mode, so the saves made before an abort stay in the store.
- Database constraints other than the sector-mapping primary key and account codes are not modelled, in particular any uniqueness of account names. Field defaults from `peacecorps/models.py` are not modelled either: a non-project account's money fields are `None`.
- Donations are reduced to an identifier and an instant; their other fields play no part in the engine.
- Reconcile.RunFrom: its own contract states only the store invariants and the outcome count. What a run guarantees about its outcomes is stated by the RunProperties lemmas.
- Reconcile.Sync: the same as Reconcile.RunFrom.

=== FILE: classifier.dfy ===
/** `account_type`: the heuristic that infers an account's category from a
    row, written as an ordered list of rules where the first rule that holds
    decides and OTHER is the fallback. */
module Classifier {
  import opened Wrappers
  import opened Ledger
  import Text

  /** One entry of the decision list: a test on the row and the category it yields. */
  datatype Rule = Rule(holds: Row -> bool, category: Category)

  /** Country funds: the code ends in `-CFD`, or the row is the bare
      "<country> COUNTRY FUND" entry with sector `None` and request `0`. */
  predicate CountryRule(row: Row) {
    || Text.EndsWith(row.projCode, "-CFD")
    || (row.sector == "None" && row.projRequest == "0"
        && row.pcvName == row.countryName + " COUNTRY FUND")
  }

  /** Memorial funds: an `SPF-` code whose name mentions MEMORIAL in any case. */
  predicate MemorialRule(row: Row) {
    Text.StartsWith(row.projCode, "SPF-") && Text.Contains(Text.Upper(row.projName), "MEMORIAL")
  }

  /** Sector funds: an `SPF-` code owned by D/OSP/GGM, or whose name is the
      volunteer-name field ignoring case. */
  predicate SectorRule(row: Row) {
    && Text.StartsWith(row.projCode, "SPF-")
    && (row.countryName == "D/OSP/GGM" || Text.EqualIgnoringCase(row.projName, row.pcvName))
  }

  /** Projects: `re.match(r'[\d-]+', code)` succeeds, i.e. the code starts
      with a digit or a dash, or a community contribution is given. */
  predicate ProjectRule(row: Row) {
    || (row.projCode != [] && (Text.IsDigit(row.projCode[0]) || row.projCode[0] == '-'))
    || row.commContrib != ""
  }

  /** The rules in the order the source tests them. */
  const Rules: seq<Rule> := [
    Rule(CountryRule, COUNTRY),
    Rule(MemorialRule, MEMORIAL),
    Rule(SectorRule, SECTOR),
    Rule(ProjectRule, PROJECT)
  ]

  /** The category of the first rule that holds, or OTHER when none does. */
  function Classify(row: Row): (c: Category)
    ensures c == OTHER <==> forall i :: 0 <= i < |Rules| ==> !Rules[i].holds(row)
    ensures forall i :: 0 <= i < |Rules| && Rules[i].holds(row)
                     && (forall j :: 0 <= j < i ==> !Rules[j].holds(row))
                     ==> c == Rules[i].category
  {
    match IndexOfFirst(Rules, (rule: Rule) => rule.holds(row))
    case Some(i) => Rules[i].category
    case None => OTHER
  }

  /** COUNTRY takes precedence over every other rule: a row is a country
      fund exactly when its code ends in `-CFD` or it is the
      "<country> COUNTRY FUND" row with sector `None` and request `0`,
      whatever the SPF-, memorial or sector fields say. */
  lemma ClassifyCountry(row: Row)
    ensures Classify(row) == COUNTRY <==>
      || (|row.projCode| >= 4 && row.projCode[|row.projCode| - 4..] == "-CFD")
      || (row.sector == "None" && row.projRequest == "0"
          && row.pcvName == row.countryName + " COUNTRY FUND")
  {
    assert Rules[0].holds(row) == CountryRule(row);
    if CountryRule(row) {
      assert Classify(row) == Rules[0].category;
    } else {
      assert Classify(row) != COUNTRY;
    }
  }

  /** A non-country `SPF-` row whose upper-cased name contains MEMORIAL is a
      memorial, and only such rows are. */
  lemma ClassifyMemorial(row: Row)
    ensures Classify(row) == MEMORIAL <==>
      && !CountryRule(row)
      && |row.projCode| >= 4 && row.projCode[..4] == "SPF-"
      && exists i :: Text.OccursAt(Text.Upper(row.projName), "MEMORIAL", i)
  {
    assert Rules[0].holds(row) == CountryRule(row);
    assert Rules[1].holds(row) == MemorialRule(row);
    Text.ContainsSpec(Text.Upper(row.projName), "MEMORIAL");
    assert Text.StartsWith(row.projCode, "SPF-") <==> |row.projCode| >= 4 && row.projCode[..4] == "SPF-";
    if !CountryRule(row) && MemorialRule(row) {
      assert Classify(row) == Rules[1].category;
      assert exists i :: Text.OccursAt(Text.Upper(row.projName), "MEMORIAL", i);
    }
  }

  /** An `SPF-` row that is neither a country fund nor a memorial is a sector
      fund exactly when its country is D/OSP/GGM or its name and volunteer
      name agree ignoring case. */
  lemma ClassifySector(row: Row)
    ensures Classify(row) == SECTOR <==>
      && !CountryRule(row) && !MemorialRule(row)
      && |row.projCode| >= 4 && row.projCode[..4] == "SPF-"
      && (row.countryName == "D/OSP/GGM" || Text.EqualIgnoringCase(row.projName, row.pcvName))
  {
    assert Rules[0].holds(row) == CountryRule(row);
    assert Rules[1].holds(row) == MemorialRule(row);
    assert Rules[2].holds(row) == SectorRule(row);
    if !CountryRule(row) && !MemorialRule(row) && SectorRule(row) {
      assert Classify(row) == Rules[2].category;
    }
  }

  /** Among the rows the first three rules leave, PROJECT is chosen exactly
      when the code starts with a digit or `-`, or a community contribution
      is present; everything else is OTHER, so each row gets exactly one
      category. */
  lemma ClassifyProjectOrOther(row: Row)
    ensures Classify(row) == PROJECT <==>
      && !CountryRule(row) && !MemorialRule(row) && !SectorRule(row)
      && ((|row.projCode| > 0 && ('0' <= row.projCode[0] <= '9' || row.projCode[0] == '-'))
          || |row.commContrib| > 0)
    ensures Classify(row) == OTHER <==>
      !CountryRule(row) && !MemorialRule(row) && !SectorRule(row) && !ProjectRule(row)
  {
    assert Rules[0].holds(row) == CountryRule(row);
    assert Rules[1].holds(row) == MemorialRule(row);
    assert Rules[2].holds(row) == SectorRule(row);
    assert Rules[3].holds(row) == ProjectRule(row);
    if !CountryRule(row) && !MemorialRule(row) && !SectorRule(row) && ProjectRule(row) {
      assert Classify(row) == Rules[3].category;
    }
  }
}

=== FILE: codec.dfy ===
/** Money and time fields of a row. The actual parsers (a binary
    floating-point dollar amount rounded to cents, and a `DD-Mon-YY` date
    taken as 23:59:59 US/Eastern and converted to UTC) are left abstract:
    they are supplied as the two functions of a `Codec`. Either parser
    returns `None` for text it cannot read, which aborts the whole run. */
module Codec {
  import opened Wrappers
  import Text

  /** `parseDollars` reads a decimal dollar amount and yields whole cents;
      `parseDate` reads a date and yields its watermark instant. Instants
      are only ever compared with `<=`. */
  datatype Codec = Codec(parseDollars: string -> Option<int>, parseDate: string -> Option<int>)

  /** `cents_from`: the cents of a money field, after thousands separators
      and surrounding whitespace are removed. */
  function CentsFrom(codec: Codec, text: string): Option<int> {
    codec.parseDollars(Text.Strip(Text.RemoveCommas(text)))
  }

  /** A comma anywhere in a money field is ignored. */
  lemma CentsFromIgnoresCommas(codec: Codec, a: string, b: string)
    ensures CentsFrom(codec, a + "," + b) == CentsFrom(codec, a + b)
  {
    var ra, rb := Text.RemoveCommas(a), Text.RemoveCommas(b);
    assert Text.RemoveCommas(",") == [];
    Text.RemoveCommasAppend(a, ",");
    assert Text.RemoveCommas(a + ",") == ra;
    Text.RemoveCommasAppend(a + ",", b);
    Text.RemoveCommasAppend(a, b);
    assert Text.RemoveCommas(a + "," + b) == Text.RemoveCommas(a + b);
  }

  /** Whitespace around a money field is ignored. */
  lemma CentsFromIgnoresPadding(codec: Codec, w1: string, text: string, w2: string)
    requires Text.AllWhitespace(w1) && Text.AllWhitespace(w2)
    ensures CentsFrom(codec, w1 + text + w2) == CentsFrom(codec, text)
  {
    Text.RemoveCommasAppend(w1 + text, w2);
    Text.RemoveCommasAppend(w1, text);
    Text.RemoveCommasSpec(w1);
    Text.RemoveCommasSpec(w2);
    assert Text.CommaFree(w1) && Text.CommaFree(w2);
    Text.StripPadded(w1, Text.RemoveCommas(text), w2);
  }
}

=== FILE: issue_cache.dfy ===
/** `IssueCache`: an in-memory copy of the sector-mapping table (sector name
    to campaign index) that falls back to the table on a miss and remembers
    only mappings it found, never their absence. */
module IssueCache {
  import opened Wrappers

  datatype Cache = Cache(issues: map<string, nat>)

  /** The result of one `find`: the cache afterwards and the issue found. */
  datatype Lookup = Lookup(cache: Cache, issue: Option<nat>)

  /** Every cached entry is the table's mapping for its key. */
  predicate Agrees(c: Cache, table: map<string, nat>) {
    forall k :: k in c.issues ==> k in table && table[k] == c.issues[k]
  }

  /** What the table says about `key`. */
  function Stored(table: map<string, nat>, key: string): Option<nat> {
    if key in table then Some(table[key]) else None
  }

  /** `IssueCache.__init__`: the cache starts as a copy of the whole table. */
  function Seed(table: map<string, nat>): (c: Cache)
    ensures Agrees(c, table)
    ensures forall k :: k in table ==> k in c.issues
  {
    Cache(table)
  }

  /** `IssueCache.find`. A hit answers from the cache and changes nothing;
      a miss consults the table and caches the mapping only if it exists. */
  function Find(c: Cache, table: map<string, nat>, key: string): (r: Lookup)
    ensures key in c.issues ==> r == Lookup(c, Some(c.issues[key]))
    ensures key !in c.issues && key !in table ==> r == Lookup(c, None)
    ensures key !in c.issues && key in table ==>
      r.cache.issues == c.issues[key := table[key]] && r.issue == Some(table[key])
    ensures Agrees(c, table) ==> Agrees(r.cache, table) && r.issue == Stored(table, key)
  {
    var issues := if key !in c.issues && key in table then c.issues[key := table[key]] else c.issues;
    Lookup(Cache(issues), if key in issues then Some(issues[key]) else None)
  }

  /** Growing the table (only adding mappings) keeps the cache in agreement. */
  lemma AgreesAfterGrowth(c: Cache, table: map<string, nat>, bigger: map<string, nat>)
    requires Agrees(c, table)
    requires forall k :: k in table ==> k in bigger && bigger[k] == table[k]
    ensures Agrees(c, bigger)
  {
  }

  /** Absence is never memoised: after a `find` that missed, a mapping added
      to the table under the same key is found by the next `find`. */
  lemma MissThenFound(c: Cache, table: map<string, nat>, key: string, campaign: nat)
    requires Agrees(c, table)
    requires Find(c, table, key).issue == None
    ensures var c1 := Find(c, table, key).cache;
            Find(c1, table[key := campaign], key).issue == Some(campaign)
  {
    var c1 := Find(c, table, key).cache;
    assert key !in c1.issues;
  }
}

=== FILE: ledger.dfy ===
/** The data the reconciliation engine reads and writes: one CSV row, and an
    in-memory stand-in for the database tables of accounts, campaigns,
    sector mappings, projects and countries. */
module Ledger {
  import opened Wrappers

  /** The columns of one accounting export row that the engine reads. */
  datatype Row = Row(
    projCode: string,               // PROJ_CODE
    projName: string,               // PROJ_NAME
    summary: string,                // SUMMARY
    sector: string,                 // SECTOR
    projRequest: string,            // PROJ_REQUEST
    projBal: string,                // PROJ_BAL
    commContrib: string,            // COMM_CONTRIB
    countryName: string,            // COUNTRY_NAME
    pcvName: string,                // PCV_NAME
    state: string,                  // STATE
    lastUpdatedFromPaygov: string   // LAST_UPDATED_FROM_PAYGOV
  )

  /** The category of an account (the constants `Account.PROJECT`, ...). */
  datatype Category = PROJECT | COUNTRY | MEMORIAL | SECTOR | OTHER

  /** A donation recorded against an account, with the instant it was made. */
  datatype Donation = Donation(id: nat, time: int)

  /** An account, identified by its code. The money fields are `None` where
      the engine never set them (non-project accounts). */
  datatype Account = Account(
    code: string,
    name: string,
    category: Category,
    current: Option<int>,
    goal: Option<int>,
    communityContribution: Option<int>,
    donations: seq<Donation>
  )

  /** A campaign owning one account, named by that account's code. */
  datatype Campaign = Campaign(name: string, account: string, campaignType: Category, description: string)

  /** A volunteer project: `country` indexes the countries table, `account`
      and `overflow` are account codes, `campaigns` are campaign indices. */
  datatype Project = Project(
    title: string,
    country: nat,
    account: string,
    overflow: string,
    volunteerName: string,
    volunteerHomeState: string,
    description: string,
    campaigns: set<nat>
  )

  /** The persistent store. Campaigns and projects get their identity from
      their position; sector mappings are keyed by sector name (their primary
      key) and point at a campaign; countries are read-only names. */
  datatype Store = Store(
    accounts: map<string, Account>,
    campaigns: seq<Campaign>,
    sectors: map<string, nat>,
    projects: seq<Project>,
    countries: seq<string>
  )

  /** Referential integrity of the store, as the database's keys and foreign
      keys guarantee it. */
  predicate Wf(s: Store) {
    && (forall c :: c in s.accounts ==> s.accounts[c].code == c)
    && (forall i :: 0 <= i < |s.campaigns| ==> s.campaigns[i].account in s.accounts)
    && (forall k :: k in s.sectors ==> s.sectors[k] < |s.campaigns|)
    && (forall i :: 0 <= i < |s.projects| ==> ProjectWf(s, s.projects[i]))
  }

  predicate ProjectWf(s: Store, p: Project) {
    && p.country < |s.countries|
    && p.account in s.accounts
    && p.overflow in s.accounts
    && (forall id :: id in p.campaigns ==> id < |s.campaigns|)
  }

  /** Whether some account already carries `name`. */
  predicate NameTaken(s: Store, name: string) {
    exists c :: c in s.accounts && s.accounts[c].name == name
  }

  /** The fields of an account that nothing changes after creation. */
  predicate SameIdentity(a: Account, b: Account) {
    && a.code == b.code
    && a.name == b.name
    && a.category == b.category
    && a.goal == b.goal
    && a.communityContribution == b.communityContribution
  }

  /** `t` is a later state of `s`: nothing was deleted, countries are
      untouched, campaigns and projects were only appended, sector mappings
      only added, and every existing account kept its identity. */
  predicate Extends(s: Store, t: Store) {
    && t.countries == s.countries
    && s.campaigns <= t.campaigns
    && s.projects <= t.projects
    && (forall k :: k in s.sectors ==> k in t.sectors && t.sectors[k] == s.sectors[k])
    && (forall c :: c in s.accounts ==> c in t.accounts && SameIdentity(s.accounts[c], t.accounts[c]))
  }

  lemma ExtendsTransitive(s: Store, t: Store, u: Store)
    requires Extends(s, t) && Extends(t, u)
    ensures Extends(s, u)
  {
  }

  // The persistence operations the engine uses: saving an account, and
  // inserting a campaign, a sector mapping or a project.

  /** `account.save()`: insert a new account or overwrite an existing one
      whose identity it keeps. */
  function SaveAccount(s: Store, a: Account): (t: Store)
    requires a.code in s.accounts ==> SameIdentity(s.accounts[a.code], a)
    ensures Extends(s, t)
    ensures Wf(s) ==> Wf(t)
    ensures t.accounts.Keys == s.accounts.Keys + {a.code} && t.accounts[a.code] == a
    ensures forall c :: c in s.accounts && c != a.code ==> t.accounts[c] == s.accounts[c]
    ensures t.campaigns == s.campaigns && t.sectors == s.sectors && t.projects == s.projects
    ensures t.countries == s.countries
  {
    var t := s.(accounts := s.accounts[a.code := a]);
    assert Wf(s) ==> forall i :: 0 <= i < |t.projects| ==> ProjectWf(t, t.projects[i]);
    t
  }

  /** `Campaign.objects.create`: append a campaign owning an existing account. */
  function CreateCampaign(s: Store, c: Campaign): (t: Store)
    requires c.account in s.accounts
    ensures Extends(s, t)
    ensures Wf(s) ==> Wf(t)
    ensures t.campaigns == s.campaigns + [c]
    ensures t.accounts == s.accounts && t.sectors == s.sectors && t.projects == s.projects
    ensures t.countries == s.countries
  {
    var t := s.(campaigns := s.campaigns + [c]);
    assert forall i :: 0 <= i < |s.campaigns| ==> t.campaigns[i] == s.campaigns[i];
    assert Wf(s) ==> forall i :: 0 <= i < |t.projects| ==> ProjectWf(t, t.projects[i]);
    t
  }

  /** `SectorMapping.objects.create`: insert a mapping from `key` to an
      existing campaign. The key is the primary key, so inserting one that
      is present fails (`None`). */
  function CreateMapping(s: Store, key: string, campaign: nat): (r: Option<Store>)
    requires campaign < |s.campaigns|
    ensures r.None? <==> key in s.sectors
    ensures r.Some? ==> Extends(s, r.value) && (Wf(s) ==> Wf(r.value))
    ensures r.Some? ==> r.value.sectors == s.sectors[key := campaign]
    ensures r.Some? ==> r.value == s.(sectors := r.value.sectors)
  {
    if key in s.sectors then None else Some(s.(sectors := s.sectors[key := campaign]))
  }

  /** `Project.objects.create` together with its campaign links. */
  function CreateProject(s: Store, p: Project): (t: Store)
    requires ProjectWf(s, p)
    ensures Extends(s, t)
    ensures Wf(s) ==> Wf(t)
    ensures t.projects == s.projects + [p]
    ensures t == s.(projects := t.projects)
  {
    var t := s.(projects := s.projects + [p]);
    assert forall i :: 0 <= i < |s.projects| ==> t.projects[i] == s.projects[i];
    t
  }
}

=== FILE: reconcile.dfy ===
/** The reconciliation engine: per row, update the account with the row's
    code if one exists, and otherwise create the account together with its
    campaign (and sector mapping) or its project. Each row is a transformer
    of the store and the issue cache that ends Created, Updated, Skipped, or
    Aborted when a money or date field does not parse or a sector mapping
    would be inserted twice; an abort ends the whole run with whatever was
    already saved. */
module Reconcile {
  import opened Wrappers
  import opened Ledger
  import Text
  import Codec
  import IssueCache
  import Classifier

  /** Why a run stopped. */
  datatype Fault =
    | BadAmount(text: string)               // cents_from could not parse a money field
    | BadDate(text: string)                 // datetime_from could not parse the watermark
    | DuplicateSectorMapping(sector: string) // a SectorMapping with this key already exists

  datatype Outcome = Created | Updated | Skipped | Aborted(fault: Fault)

  datatype StepResult = StepResult(store: Store, cache: IssueCache.Cache, outcome: Outcome)

  datatype RunResult = RunResult(store: Store, outcomes: seq<Outcome>)

  /** The state every row is processed in: a well-formed store and an issue
      cache all of whose entries are the store's own sector mappings. */
  predicate Ready(s: Store, cache: IssueCache.Cache) {
    Wf(s) && IssueCache.Agrees(cache, s.sectors)
  }

  /** The name a new account gets: the project name, with the code appended
      in parentheses if some account already has that name. */
  function AccountName(s: Store, row: Row): string {
    if NameTaken(s, row.projName) then row.projName + " (" + row.projCode + ")" else row.projName
  }

  /** `Country.objects.filter(name__iexact=...).first()`: the first country
      whose name matches ignoring case. */
  function FindCountry(countries: seq<string>, name: string): (r: Option<nat>)
    ensures r.None? <==> forall i :: 0 <= i < |countries| ==> !Text.EqualIgnoringCase(countries[i], name)
    ensures r.Some? ==> r.value < |countries| && Text.EqualIgnoringCase(countries[r.value], name)
    ensures r.Some? ==> forall j :: 0 <= j < r.value ==> !Text.EqualIgnoringCase(countries[j], name)
  {
    IndexOfFirst(countries, (c: string) => Text.EqualIgnoringCase(c, name))
  }

  /** The volunteer's name with a leading home-state prefix cut off and the
      rest stripped; unchanged when it does not start with the state. */
  function VolunteerName(row: Row): string {
    if Text.StartsWith(row.pcvName, row.state) then Text.Strip(row.pcvName[|row.state|..])
    else row.pcvName
  }

  /** Without the state prefix the name is kept as given; with it, what
      remains is the text after the prefix minus surrounding whitespace,
      and it neither starts nor ends with whitespace. */
  lemma VolunteerNameSpec(row: Row)
    ensures !Text.StartsWith(row.pcvName, row.state) ==> VolunteerName(row) == row.pcvName
    ensures Text.StartsWith(row.pcvName, row.state) ==>
      var v := VolunteerName(row);
      && |row.state| <= |row.pcvName|
      && (exists lo :: Text.Framed(row.pcvName[|row.state|..], v, lo))
      && (v != [] ==> !Text.IsWhitespace(v[0]) && !Text.IsWhitespace(v[|v| - 1]))
  {
    if Text.StartsWith(row.pcvName, row.state) {
      Text.StripSpec(row.pcvName[|row.state|..]);
    }
  }

  /** An empty community contribution counts as "0". */
  function ContributionText(row: Row): string {
    if row.commContrib == "" then "0" else row.commContrib
  }

  /** The donations that survive pruning at `watermark`, in order. */
  function Prune(ds: seq<Donation>, watermark: int): seq<Donation> {
    if ds == [] then []
    else if ds[0].time <= watermark then Prune(ds[1..], watermark)
    else [ds[0]] + Prune(ds[1..], watermark)
  }

  /** Pruning deletes exactly the donations made at or before the
      watermark: every survivor is later than it, and each later donation
      is kept as often as it occurred. */
  lemma {:induction false} PruneSpec(ds: seq<Donation>, watermark: int)
    ensures var r := Prune(ds, watermark);
            forall i :: 0 <= i < |r| ==> r[i].time > watermark
    ensures forall d :: multiset(Prune(ds, watermark))[d] == if d.time <= watermark then 0 else multiset(ds)[d]
    decreases |ds|
  {
    if ds != [] {
      PruneSpec(ds[1..], watermark);
      assert ds == [ds[0]] + ds[1..];
      var rest := Prune(ds[1..], watermark);
      if ds[0].time > watermark {
        var r := [ds[0]] + rest;
        forall i | 0 <= i < |r| ensures r[i].time > watermark {
          if i > 0 { assert r[i] == rest[i - 1]; }
        }
      }
    }
  }

  /** Pruning keeps the surviving donations in their original order. */
  lemma {:induction false} PruneAppend(a: seq<Donation>, b: seq<Donation>, watermark: int)
    ensures Prune(a + b, watermark) == Prune(a, watermark) + Prune(b, watermark)
    decreases |a|
  {
    if a == [] {
      assert a + b == b;
    } else {
      assert (a + b)[0] == a[0];
      assert (a + b)[1..] == a[1..] + b;
      PruneAppend(a[1..], b, watermark);
    }
  }

  /** Donations all made after the watermark are kept as they are. */
  lemma {:induction false} PruneKeepsLater(ds: seq<Donation>, watermark: int)
    requires forall i :: 0 <= i < |ds| ==> ds[i].time > watermark
    ensures Prune(ds, watermark) == ds
    decreases |ds|
  {
    if ds != [] {
      PruneKeepsLater(ds[1..], watermark);
      assert ds == [ds[0]] + ds[1..];
    }
  }

  /** Pruning twice at the same watermark prunes nothing more. */
  lemma {:induction false} PruneIdempotent(ds: seq<Donation>, watermark: int)
    ensures Prune(Prune(ds, watermark), watermark) == Prune(ds, watermark)
    decreases |ds|
  {
    if ds != [] {
      PruneIdempotent(ds[1..], watermark);
      if ds[0].time > watermark {
        var rest := Prune(ds[1..], watermark);
        assert ([ds[0]] + rest)[0] == ds[0];
        assert ([ds[0]] + rest)[1..] == rest;
      }
    }
  }

  /** What a created project row leaves in the store `t` made from `s`: the
      account keyed by the row's code with goal PROJ_REQUEST, current goal
      minus PROJ_BAL and the community contribution from COMM_CONTRIB (or
      "0"), and one new project titled and described after the row, in the
      first country whose name matches the row's ignoring case, attached to the
      campaign its sector maps to and overflowing into that campaign's
      account. No campaign or sector mapping is added. */
  predicate ProjectRowSaved(codec: Codec.Codec, s: Store, row: Row, name: string, t: Store) {
    var goal := Codec.CentsFrom(codec, row.projRequest);
    var balance := Codec.CentsFrom(codec, row.projBal);
    var contribution := Codec.CentsFrom(codec, ContributionText(row));
    && goal.Some? && balance.Some? && contribution.Some?
    && row.sector in s.sectors && s.sectors[row.sector] < |s.campaigns|
    && t.accounts == s.accounts[row.projCode := Account(row.projCode, name, PROJECT,
                                                         Some(goal.value - balance.value), goal, contribution, [])]
    && t.campaigns == s.campaigns && t.sectors == s.sectors && t.countries == s.countries
    && |t.projects| == |s.projects| + 1 && t.projects[..|s.projects|] == s.projects
    && var p := t.projects[|s.projects|];
       && p.title == row.projName && p.description == row.summary
       && p.account == row.projCode
       && FindCountry(s.countries, row.countryName) == Some(p.country)
       && p.overflow == s.campaigns[s.sectors[row.sector]].account
       && p.campaigns == {s.sectors[row.sector]}
       && p.volunteerName == VolunteerName(row) && p.volunteerHomeState == row.state
  }

  /** `create_pcpp`: resolve the country and the issue; if either is missing
      nothing is saved, otherwise save the account with its goal, current
      and community contribution, and the project wired to the country, the
      issue's account as overflow, and the issue campaign. A money field that
      does not parse aborts before anything is saved. */
  function CreatePcpp(codec: Codec.Codec, s: Store, cache: IssueCache.Cache, row: Row, name: string): (res: StepResult)
    requires Ready(s, cache) && row.projCode !in s.accounts
    ensures Ready(res.store, res.cache) && Extends(s, res.store)
    ensures res.outcome == Skipped <==> FindCountry(s.countries, row.countryName).None? || row.sector !in s.sectors
    ensures res.outcome.Aborted? ==> res.outcome.fault.BadAmount?
    ensures !res.outcome.Created? ==> res.store == s
    ensures res.outcome.Created? <==> ProjectRowSaved(codec, s, row, name, res.store)
    ensures res.outcome.Created? <==>
      && FindCountry(s.countries, row.countryName).Some? && row.sector in s.sectors
      && Codec.CentsFrom(codec, row.projRequest).Some? && Codec.CentsFrom(codec, row.projBal).Some?
      && Codec.CentsFrom(codec, ContributionText(row)).Some?
    ensures res.outcome.Aborted? <==>
      && FindCountry(s.countries, row.countryName).Some? && row.sector in s.sectors
      && (|| Codec.CentsFrom(codec, row.projRequest).None? || Codec.CentsFrom(codec, row.projBal).None?
          || Codec.CentsFrom(codec, ContributionText(row)).None?)
  {
    var country := FindCountry(s.countries, row.countryName);
    var lookup := IssueCache.Find(cache, s.sectors, row.sector);
    if country.None? || lookup.issue.None? then StepResult(s, lookup.cache, Skipped)
    else
      var goal := Codec.CentsFrom(codec, row.projRequest);
      var balance := Codec.CentsFrom(codec, row.projBal);
      var contribution := Codec.CentsFrom(codec, ContributionText(row));
      if goal.None? then StepResult(s, lookup.cache, Aborted(BadAmount(row.projRequest)))
      else if balance.None? then StepResult(s, lookup.cache, Aborted(BadAmount(row.projBal)))
      else if contribution.None? then StepResult(s, lookup.cache, Aborted(BadAmount(ContributionText(row))))
      else StepResult(SaveProject(codec, s, row, name, country.value, lookup.issue.value), lookup.cache, Created)
  }

  /** The saves of a resolved project row whose money fields parse: its
      account, then its project. */
  function SaveProject(codec: Codec.Codec, s: Store, row: Row, name: string, country: nat, issue: nat): (t: Store)
    requires Wf(s) && row.projCode !in s.accounts
    requires FindCountry(s.countries, row.countryName) == Some(country)
    requires row.sector in s.sectors && s.sectors[row.sector] == issue
    requires Codec.CentsFrom(codec, row.projRequest).Some? && Codec.CentsFrom(codec, row.projBal).Some?
    requires Codec.CentsFrom(codec, ContributionText(row)).Some?
    ensures Wf(t) && Extends(s, t)
    ensures ProjectRowSaved(codec, s, row, name, t)
    ensures t.projects[|s.projects|].country == country
  {
    var goal := Codec.CentsFrom(codec, row.projRequest).value;
    var balance := Codec.CentsFrom(codec, row.projBal).value;
    var contribution := Codec.CentsFrom(codec, ContributionText(row)).value;
    var account := Account(row.projCode, name, PROJECT, Some(goal - balance), Some(goal), Some(contribution), []);
    var s1 := SaveAccount(s, account);
    var project := Project(row.projName, country, row.projCode, s1.campaigns[issue].account,
                           VolunteerName(row), row.state, row.summary, {issue});
    assert ProjectWf(s1, project);
    var t := CreateProject(s1, project);
    ExtendsTransitive(s, s1, t);
    assert t.accounts == s.accounts[row.projCode := account];
    assert t.projects == s.projects + [project];
    assert t.projects[..|s.projects|] == s.projects && t.projects[|s.projects|] == project;
    t
  }

  /** `create_account`: classify the row and pick a free name; projects go
      through `CreatePcpp`, every other category saves the account and then a
      campaign owning it, plus a sector mapping to that campaign for SECTOR.
      Inserting a mapping whose key exists fails after the account and
      campaign were saved. */
  function CreateAccount(codec: Codec.Codec, s: Store, cache: IssueCache.Cache, row: Row): (res: StepResult)
    requires Ready(s, cache) && row.projCode !in s.accounts
    ensures Ready(res.store, res.cache) && Extends(s, res.store)
    ensures res.outcome.Created? || res.outcome.Skipped? || res.outcome.Aborted?
    ensures res.outcome.Skipped? ==> res.store == s
    ensures res.outcome.Created? ==> res.store.accounts.Keys == s.accounts.Keys + {row.projCode}
  {
    var category := Classifier.Classify(row);
    var name := AccountName(s, row);
    if category == PROJECT then CreatePcpp(codec, s, cache, row, name)
    else CreateFund(s, cache, row, name, category)
  }

  /** The non-project half of `create_account`: save an account with no
      money fields and no donations, append a campaign of the same name and
      category owning it, and for SECTOR map the row's sector to that
      campaign. The mapping insert fails exactly when the sector is already
      mapped, after the account and campaign were saved. */
  function CreateFund(s: Store, cache: IssueCache.Cache, row: Row, name: string, category: Category): (res: StepResult)
    requires Ready(s, cache) && row.projCode !in s.accounts && category != PROJECT
    ensures Ready(res.store, res.cache) && Extends(s, res.store) && res.cache == cache
    ensures res.outcome == Created || res.outcome == Aborted(DuplicateSectorMapping(row.sector))
    ensures res.outcome.Aborted? <==> category == SECTOR && row.sector in s.sectors
    ensures res.store.accounts == s.accounts[row.projCode := Account(row.projCode, name, category, None, None, None, [])]
    ensures res.store.campaigns == s.campaigns + [Campaign(name, row.projCode, category, row.summary)]
    ensures res.store.projects == s.projects && res.store.countries == s.countries
    ensures res.store.sectors ==
      if category == SECTOR && res.outcome.Created? then s.sectors[row.sector := |s.campaigns|] else s.sectors
  {
    var account := Account(row.projCode, name, category, None, None, None, []);
    var s1 := SaveAccount(s, account);
    var s2 := CreateCampaign(s1, Campaign(name, row.projCode, category, row.summary));
    if category != SECTOR then StepResult(s2, cache, Created)
    else
      match CreateMapping(s2, row.sector, |s.campaigns|)
      case None => StepResult(s2, cache, Aborted(DuplicateSectorMapping(row.sector)))
      case Some(s3) => StepResult(s3, cache, Created)
  }

  /** The row carries a watermark that `datetime_from` cannot read. */
  predicate DateUnreadable(codec: Codec.Codec, row: Row) {
    row.lastUpdatedFromPaygov != "" && codec.parseDate(row.lastUpdatedFromPaygov).None?
  }

  /** The account after the row's watermark, if any, was applied to its
      donations: those made at or before it are gone, every other one is
      kept as often as it occurred, and nothing else changes. */
  function PruneDonations(codec: Codec.Codec, a: Account, row: Row): (p: Account)
    requires !DateUnreadable(codec, row)
    ensures p == a.(donations := p.donations)
    ensures var text := row.lastUpdatedFromPaygov;
            forall d :: multiset(p.donations)[d] ==
              if text != "" && d.time <= codec.parseDate(text).value then 0 else multiset(a.donations)[d]
  {
    var text := row.lastUpdatedFromPaygov;
    if text == "" then a
    else
      PruneSpec(a.donations, codec.parseDate(text).value);
      a.(donations := Prune(a.donations, codec.parseDate(text).value))
  }

  /** An existing account refreshed from a row, and how the refresh ended. */
  datatype Refresh = Refresh(account: Account, outcome: Outcome)

  /** `update_account` on the account itself: when the row carries a
      watermark, delete the donations made at or before it; then, for a
      project account only, set `current` to goal minus balance from the row.
      An unreadable watermark aborts before anything changes; an unreadable
      amount aborts after the donations were deleted. The account's identity
      (code, name, category, goal, contribution) never changes. */
  function RefreshAccount(codec: Codec.Codec, a: Account, row: Row): (r: Refresh)
    ensures SameIdentity(a, r.account)
    ensures DateUnreadable(codec, row) ==> r == Refresh(a, Aborted(BadDate(row.lastUpdatedFromPaygov)))
    ensures r.outcome == Updated <==>
      && !DateUnreadable(codec, row)
      && (a.category == PROJECT ==>
            Codec.CentsFrom(codec, row.projRequest).Some? && Codec.CentsFrom(codec, row.projBal).Some?)
    ensures r.outcome != Updated && !DateUnreadable(codec, row) ==> r.outcome.Aborted? && r.outcome.fault.BadAmount?
    ensures !DateUnreadable(codec, row) ==>
      var text := row.lastUpdatedFromPaygov;
      forall d :: multiset(r.account.donations)[d] ==
        if text != "" && d.time <= codec.parseDate(text).value then 0 else multiset(a.donations)[d]
    ensures r.outcome == Updated && a.category == PROJECT ==>
      r.account.current == Some(Codec.CentsFrom(codec, row.projRequest).value - Codec.CentsFrom(codec, row.projBal).value)
    ensures r.outcome != Updated || a.category != PROJECT ==> r.account.current == a.current
  {
    if DateUnreadable(codec, row) then Refresh(a, Aborted(BadDate(row.lastUpdatedFromPaygov)))
    else
      var pruned := PruneDonations(codec, a, row);
      if a.category != PROJECT then Refresh(pruned, Updated)
      else
        var goal := Codec.CentsFrom(codec, row.projRequest);
        var balance := Codec.CentsFrom(codec, row.projBal);
        if goal.None? then Refresh(pruned, Aborted(BadAmount(row.projRequest)))
        else if balance.None? then Refresh(pruned, Aborted(BadAmount(row.projBal)))
        else Refresh(pruned.(current := Some(goal.value - balance.value)), Updated)
  }

  /** `update_account` on the store: the refreshed account replaces the one
      with the row's code (even when the refresh aborted on an amount, since
      the donations were already deleted) and nothing else changes. */
  function UpdateAccount(codec: Codec.Codec, s: Store, cache: IssueCache.Cache, row: Row): (res: StepResult)
    requires Ready(s, cache) && row.projCode in s.accounts
    ensures Ready(res.store, res.cache) && Extends(s, res.store)
    ensures res.cache == cache
    ensures var r := RefreshAccount(codec, s.accounts[row.projCode], row);
            && res.outcome == r.outcome
            && res.store == s.(accounts := s.accounts[row.projCode := r.account])
    ensures DateUnreadable(codec, row) ==> res.store == s
  {
    var r := RefreshAccount(codec, s.accounts[row.projCode], row);
    StepResult(SaveAccount(s, r.account), cache, r.outcome)
  }

  /** One iteration of the loop in `Command.handle`: an existing code is
      updated, an unseen one is created. */
  function Step(codec: Codec.Codec, s: Store, cache: IssueCache.Cache, row: Row): (res: StepResult)
    requires Ready(s, cache)
    ensures Ready(res.store, res.cache) && Extends(s, res.store)
    ensures row.projCode in s.accounts ==>
      (res.outcome.Updated? || res.outcome.Aborted?) && res.store.accounts.Keys == s.accounts.Keys
    ensures row.projCode in s.accounts ==>
      var r := RefreshAccount(codec, s.accounts[row.projCode], row);
      && res.outcome == r.outcome && res.cache == cache
      && res.store == s.(accounts := s.accounts[row.projCode := r.account])
    ensures row.projCode !in s.accounts ==> !res.outcome.Updated?
    ensures res.outcome.Created? ==> res.store.accounts.Keys == s.accounts.Keys + {row.projCode}
    ensures res.outcome.Skipped? ==> res.store == s
  {
    if row.projCode in s.accounts then UpdateAccount(codec, s, cache, row)
    else CreateAccount(codec, s, cache, row)
  }

  /** The rows from `rows` on, processed in order; an abort ends the run. */
  function RunFrom(codec: Codec.Codec, s: Store, cache: IssueCache.Cache, rows: seq<Row>): (r: RunResult)
    requires Ready(s, cache)
    ensures Wf(r.store) && Extends(s, r.store)
    ensures |r.outcomes| <= |rows|
    decreases |rows|
  {
    if rows == [] then RunResult(s, [])
    else
      var step := Step(codec, s, cache, rows[0]);
      if step.outcome.Aborted? then RunResult(step.store, [step.outcome])
      else
        var rest := RunFrom(codec, step.store, step.cache, rows[1..]);
        ExtendsTransitive(s, step.store, rest.store);
        RunResult(rest.store, [step.outcome] + rest.outcomes)
  }

  /** `Command.handle`: seed the issue cache from the store, then process
      every row. */
  function Sync(codec: Codec.Codec, s: Store, rows: seq<Row>): (r: RunResult)
    requires Wf(s)
    ensures Wf(r.store) && Extends(s, r.store)
    ensures |r.outcomes| <= |rows|
  {
    RunFrom(codec, s, IssueCache.Seed(s.sectors), rows)
  }
}

=== FILE: reconcile_properties.dfy ===
/** What one row does to the store, stated per path of the engine. */
module ReconcileProperties {
  import opened Wrappers
  import opened Ledger
  import Text
  import Codec
  import IssueCache
  import Classifier
  import opened Reconcile

  /** A new account is keyed and coded by the row's code, and named after
      the project unless that name is in use, in which case the code is
      appended in parentheses. This holds whenever the account was saved,
      including when a later sector-mapping insert aborted the run. */
  lemma NewAccountName(codec: Codec.Codec, s: Store, cache: IssueCache.Cache, row: Row)
    requires Ready(s, cache) && row.projCode !in s.accounts
    requires row.projCode in CreateAccount(codec, s, cache, row).store.accounts
    ensures var a := CreateAccount(codec, s, cache, row).store.accounts[row.projCode];
            && a.code == row.projCode
            && (NameTaken(s, row.projName) ==> a.name == row.projName + " (" + row.projCode + ")")
            && (!NameTaken(s, row.projName) ==> a.name == row.projName)
  {
    var name := AccountName(s, row);
    if Classifier.Classify(row) == PROJECT {
      assert CreateAccount(codec, s, cache, row) == CreatePcpp(codec, s, cache, row, name);
      PcppAccountName(codec, s, cache, row, name);
    }
  }

  lemma PcppAccountName(codec: Codec.Codec, s: Store, cache: IssueCache.Cache, row: Row, name: string)
    requires Ready(s, cache) && row.projCode !in s.accounts
    requires row.projCode in CreatePcpp(codec, s, cache, row, name).store.accounts
    ensures var a := CreatePcpp(codec, s, cache, row, name).store.accounts[row.projCode];
            a.code == row.projCode && a.name == name
  {
  }

  /** A new non-project row adds exactly one account and one campaign that
      owns it and has the row's category as its type; a SECTOR row also maps
      its sector to that campaign, and inserting that mapping aborts exactly
      when the sector is already mapped. No project is created. */
  lemma NonProjectCreation(codec: Codec.Codec, s: Store, cache: IssueCache.Cache, row: Row)
    requires Ready(s, cache) && row.projCode !in s.accounts
    requires Classifier.Classify(row) != PROJECT
    ensures var res := CreateAccount(codec, s, cache, row);
            var t := res.store;
            var k := Classifier.Classify(row);
            && (res.outcome == Created || res.outcome == Aborted(DuplicateSectorMapping(row.sector)))
            && (res.outcome.Aborted? <==> k == SECTOR && row.sector in s.sectors)
            && t.accounts.Keys == s.accounts.Keys + {row.projCode}
            && t.accounts[row.projCode].category == k
            && |t.campaigns| == |s.campaigns| + 1
            && t.campaigns[|s.campaigns|].account == row.projCode
            && t.campaigns[|s.campaigns|].campaignType == k
            && t.campaigns[|s.campaigns|].name == t.accounts[row.projCode].name
            && t.projects == s.projects
            && t.accounts[row.projCode].donations == []
            && t.accounts[row.projCode].current == None
            && (res.outcome.Created? ==>
                  (row.sector in t.sectors && t.sectors[row.sector] == |s.campaigns| <==> k == SECTOR))
            && (res.outcome.Created? ==>
                  t.sectors.Keys == s.sectors.Keys + (if k == SECTOR then {row.sector} else {}))
  {
    var k := Classifier.Classify(row);
    var t := CreateAccount(codec, s, cache, row).store;
    if k != SECTOR && row.sector in t.sectors {
      assert t.sectors[row.sector] == s.sectors[row.sector] < |s.campaigns|;
    }
  }

  /** A new PROJECT row goes through `create_pcpp` under the name chosen for
      it: it is skipped exactly when its country or sector does not resolve,
      and created exactly when its account and project are saved as
      `ProjectRowSaved` describes. */
  lemma ProjectCreation(codec: Codec.Codec, s: Store, cache: IssueCache.Cache, row: Row)
    requires Ready(s, cache) && row.projCode !in s.accounts
    requires Classifier.Classify(row) == PROJECT
    ensures var res := CreateAccount(codec, s, cache, row);
            res.outcome == Skipped <==> FindCountry(s.countries, row.countryName).None? || row.sector !in s.sectors
    ensures var res := CreateAccount(codec, s, cache, row);
            res.outcome == Created <==> ProjectRowSaved(codec, s, row, AccountName(s, row), res.store)
  {
    assert CreateAccount(codec, s, cache, row) == CreatePcpp(codec, s, cache, row, AccountName(s, row));
  }

  /** `a` already reflects `row`: the watermark is readable, no donation is
      at or before it, and a project account's current amount is already
      goal - balance from the row. */
  predicate UpToDate(codec: Codec.Codec, a: Account, row: Row) {
    var text := row.lastUpdatedFromPaygov;
    var goal := Codec.CentsFrom(codec, row.projRequest);
    var balance := Codec.CentsFrom(codec, row.projBal);
    && !DateUnreadable(codec, row)
    && (text != "" ==>
          forall i :: 0 <= i < |a.donations| ==> a.donations[i].time > codec.parseDate(text).value)
    && (a.category == PROJECT ==>
          goal.Some? && balance.Some? && a.current == Some(goal.value - balance.value))
  }

  /** Refreshing an up-to-date account finds nothing to change. */
  lemma RefreshUpToDate(codec: Codec.Codec, a: Account, row: Row)
    requires UpToDate(codec, a, row)
    ensures RefreshAccount(codec, a, row) == Refresh(a, Updated)
  {
    if row.lastUpdatedFromPaygov != "" {
      PruneKeepsLater(a.donations, codec.parseDate(row.lastUpdatedFromPaygov).value);
    }
  }

  /** A refresh that did not abort leaves the account up to date, so
      refreshing again with the same row changes nothing. */
  lemma RefreshMakesUpToDate(codec: Codec.Codec, a: Account, row: Row)
    requires RefreshAccount(codec, a, row).outcome == Updated
    ensures UpToDate(codec, RefreshAccount(codec, a, row).account, row)
  {
    var b := RefreshAccount(codec, a, row).account;
    if row.lastUpdatedFromPaygov != "" {
      forall i | 0 <= i < |b.donations|
        ensures b.donations[i].time > codec.parseDate(row.lastUpdatedFromPaygov).value
      {
        assert b.donations[i] in multiset(b.donations);
      }
    }
  }

  /** An update of an up-to-date account leaves the store exactly as it was. */
  lemma UpdateOfCurrentAccountIsNoOp(codec: Codec.Codec, s: Store, cache: IssueCache.Cache, row: Row)
    requires Ready(s, cache) && row.projCode in s.accounts
    requires UpToDate(codec, s.accounts[row.projCode], row)
    ensures UpdateAccount(codec, s, cache, row).outcome == Updated
    ensures UpdateAccount(codec, s, cache, row).store == s
  {
    var a := s.accounts[row.projCode];
    RefreshUpToDate(codec, a, row);
    assert s.accounts[row.projCode := a] == s.accounts;
  }

  /** A second update with the same row changes nothing. */
  lemma UpdateTwiceIsNoOp(codec: Codec.Codec, s: Store, cache: IssueCache.Cache, row: Row)
    requires Ready(s, cache) && row.projCode in s.accounts
    requires UpdateAccount(codec, s, cache, row).outcome == Updated
    ensures var first := UpdateAccount(codec, s, cache, row);
            var second := UpdateAccount(codec, first.store, first.cache, row);
            second.outcome == Updated && second.store == first.store
  {
    var first := UpdateAccount(codec, s, cache, row);
    var a := s.accounts[row.projCode];
    RefreshMakesUpToDate(codec, a, row);
    assert first.store.accounts[row.projCode] == RefreshAccount(codec, a, row).account;
    UpdateOfCurrentAccountIsNoOp(codec, first.store, first.cache, row);
  }

  /** Updating a project right after creating it from the same row changes nothing. */
  lemma UpdateAfterProjectIsNoOp(codec: Codec.Codec, s: Store, cache: IssueCache.Cache, row: Row, name: string)
    requires Ready(s, cache) && row.projCode !in s.accounts
    requires CreatePcpp(codec, s, cache, row, name).outcome == Created
    requires !DateUnreadable(codec, row)
    ensures var first := CreatePcpp(codec, s, cache, row, name);
            var second := UpdateAccount(codec, first.store, first.cache, row);
            second.outcome == Updated && second.store == first.store
  {
    var first := CreatePcpp(codec, s, cache, row, name);
    assert ProjectRowSaved(codec, s, row, name, first.store);
    assert UpToDate(codec, first.store.accounts[row.projCode], row);
    UpdateOfCurrentAccountIsNoOp(codec, first.store, first.cache, row);
  }

  /** Updating a non-project account right after creating it from the same
      row changes nothing. */
  lemma UpdateAfterCampaignIsNoOp(codec: Codec.Codec, s: Store, cache: IssueCache.Cache, row: Row)
    requires Ready(s, cache) && row.projCode !in s.accounts
    requires Classifier.Classify(row) != PROJECT
    requires CreateAccount(codec, s, cache, row).outcome == Created
    requires !DateUnreadable(codec, row)
    ensures var first := CreateAccount(codec, s, cache, row);
            var second := UpdateAccount(codec, first.store, first.cache, row);
            second.outcome == Updated && second.store == first.store
  {
    var first := CreateAccount(codec, s, cache, row);
    NonProjectCreation(codec, s, cache, row);
    assert UpToDate(codec, first.store.accounts[row.projCode], row);
    UpdateOfCurrentAccountIsNoOp(codec, first.store, first.cache, row);
  }

  /** A row whose code is already stored takes the update path: the stored
      account is replaced by its refresh (donations pruned, `current`
      recomputed), and the cache and every other table are left alone. */
  lemma KnownCodeIsUpdated(codec: Codec.Codec, s: Store, cache: IssueCache.Cache, row: Row)
    requires Ready(s, cache) && row.projCode in s.accounts
    ensures var res := Step(codec, s, cache, row);
            var r := RefreshAccount(codec, s.accounts[row.projCode], row);
            && res.outcome == r.outcome && res.cache == cache
            && res.store == s.(accounts := s.accounts[row.projCode := r.account])
  {
  }

  /** A row whose code is not stored yet goes through account creation. */
  lemma UnseenCodeIsCreated(codec: Codec.Codec, s: Store, cache: IssueCache.Cache, row: Row)
    requires Ready(s, cache) && row.projCode !in s.accounts
    ensures Step(codec, s, cache, row) == CreateAccount(codec, s, cache, row)
  {
  }

  /** Applying a row a second time, right after it created or updated its
      account, takes the update path and changes nothing: `current` is
      recomputed to the same value and pruning at the same watermark removes
      nothing more. */
  lemma ReapplyRowIsNoOp(codec: Codec.Codec, s: Store, cache: IssueCache.Cache, row: Row)
    requires Ready(s, cache)
    requires Step(codec, s, cache, row).outcome in {Created, Updated}
    requires !DateUnreadable(codec, row)
    ensures var first := Step(codec, s, cache, row);
            var second := Step(codec, first.store, first.cache, row);
            second.outcome == Updated && second.store == first.store
  {
    var first := Step(codec, s, cache, row);
    if row.projCode in s.accounts {
      assert first == UpdateAccount(codec, s, cache, row);
      UpdateTwiceIsNoOp(codec, s, cache, row);
    } else if Classifier.Classify(row) == PROJECT {
      var name := AccountName(s, row);
      assert first == CreatePcpp(codec, s, cache, row, name);
      UpdateAfterProjectIsNoOp(codec, s, cache, row, name);
    } else {
      assert first == CreateAccount(codec, s, cache, row);
      UpdateAfterCampaignIsNoOp(codec, s, cache, row);
    }
  }

  /** Two new rows with the same project name and different codes, when
      both are created, give two accounts, the second named with its code
      appended. */
  lemma SameNameSecondGetsSuffix(codec: Codec.Codec, s: Store, cache: IssueCache.Cache, row1: Row, row2: Row)
    requires Ready(s, cache)
    requires row1.projName == row2.projName && row1.projCode != row2.projCode
    requires row1.projCode !in s.accounts && row2.projCode !in s.accounts
    ensures var r1 := Step(codec, s, cache, row1);
            var r2 := Step(codec, r1.store, r1.cache, row2);
            r1.outcome == Created && r2.outcome == Created ==>
              && row1.projCode in r2.store.accounts && row2.projCode in r2.store.accounts
              && r2.store.accounts[row2.projCode].name == row2.projName + " (" + row2.projCode + ")"
  {
    var r1 := Step(codec, s, cache, row1);
    if r1.outcome == Created && Step(codec, r1.store, r1.cache, row2).outcome == Created {
      assert r1 == CreateAccount(codec, s, cache, row1);
      NewAccountName(codec, s, cache, row1);
      assert NameTaken(r1.store, row2.projName) by {
        if NameTaken(s, row1.projName) {
          var c :| c in s.accounts && s.accounts[c].name == row1.projName;
          assert SameIdentity(s.accounts[c], r1.store.accounts[c]);
        } else {
          assert r1.store.accounts[row1.projCode].name == row1.projName;
        }
      }
      assert row2.projCode !in r1.store.accounts;
      var r2 := Step(codec, r1.store, r1.cache, row2);
      assert r2 == CreateAccount(codec, r1.store, r1.cache, row2);
      NewAccountName(codec, r1.store, r1.cache, row2);
    }
  }

  /** A store in which the suffixed name is itself already taken. */
  function CollisionStore(): Store {
    Store(map["A1" := Account("A1", "Well", OTHER, None, None, None, []),
              "A2" := Account("A2", "Well (P9)", OTHER, None, None, None, [])],
          [], map[], [], [])
  }

  function CollisionRow(): Row {
    Row("P9", "Well", "", "Water", "0", "0", "", "Peru", "", "", "")
  }

  /** Appending the code once does not make a name unique: when both the
      project name and the suffixed name are already in use, the new account
      shares its name with an existing one. */
  lemma SuffixedNameCanCollide(codec: Codec.Codec, s: Store, cache: IssueCache.Cache, row: Row)
    requires Ready(s, cache) && row.projCode !in s.accounts
    requires NameTaken(s, row.projName)
    requires NameTaken(s, row.projName + " (" + row.projCode + ")")
    requires row.projCode in Step(codec, s, cache, row).store.accounts
    ensures var t := Step(codec, s, cache, row).store;
            exists c :: c in t.accounts && c != row.projCode && t.accounts[c].name == t.accounts[row.projCode].name
  {
    var t := Step(codec, s, cache, row).store;
    assert t == CreateAccount(codec, s, cache, row).store;
    NewAccountName(codec, s, cache, row);
    var c :| c in s.accounts && s.accounts[c].name == row.projName + " (" + row.projCode + ")";
    assert SameIdentity(s.accounts[c], t.accounts[c]);
  }

  /** A concrete store and row meeting the conditions above: "Well" and
      "Well (P9)" are taken, and a new OTHER row "Well" with code P9 is
      saved as "Well (P9)" next to account A2. */
  lemma CollisionExample(codec: Codec.Codec)
    ensures var s := CollisionStore();
            var t := Step(codec, s, IssueCache.Seed(s.sectors), CollisionRow()).store;
            && "P9" in t.accounts && "A2" in t.accounts
            && t.accounts["P9"].name == t.accounts["A2"].name
  {
    var s := CollisionStore();
    var row := CollisionRow();
    var cache := IssueCache.Seed(s.sectors);
    assert !Text.StartsWith(row.projCode, "SPF-") && !Text.EndsWith(row.projCode, "-CFD");
    assert !Classifier.ProjectRule(row);
    Classifier.ClassifyProjectOrOther(row);
    assert s.accounts["A1"].name == row.projName;
    assert s.accounts["A2"].name == row.projName + " (" + row.projCode + ")";
    NonProjectCreation(codec, s, cache, row);
    NewAccountName(codec, s, cache, row);
    var t := CreateAccount(codec, s, cache, row).store;
    assert Step(codec, s, cache, row).store == t;
    assert SameIdentity(s.accounts["A2"], t.accounts["A2"]);
  }
}

=== FILE: run_properties.dfy ===
/** What a whole run of `Command.handle` guarantees: it stops at the first
    abort, never creates a code twice, keeps every code it touched, and a
    second run over the same rows only updates. */
module RunProperties {
  import opened Ledger
  import Codec
  import IssueCache
  import opened Reconcile

  // Facts about a run's outcomes, one row per outcome. Each is stated as a
  // predicate so that the bookkeeping lemmas below can shift indices
  // without the engine in view.

  /** Only the last outcome may be an abort, and a run that did not reach
      every row ends with one. */
  predicate StopsAtAbort(rows: seq<Row>, outcomes: seq<Outcome>) {
    && (forall i :: 0 <= i < |outcomes| - 1 ==> !outcomes[i].Aborted?)
    && (|outcomes| == |rows| || (|outcomes| > 0 && outcomes[|outcomes| - 1].Aborted?))
  }

  /** Every row carrying `code` was updated or aborted, never created or skipped. */
  predicate NeverCreated(rows: seq<Row>, outcomes: seq<Outcome>, code: string) {
    forall i :: 0 <= i < |outcomes| && i < |rows| && rows[i].projCode == code ==>
      outcomes[i].Updated? || outcomes[i].Aborted?
  }

  /** No row after a created one is created again with the same code. */
  predicate CreatedOnce(rows: seq<Row>, outcomes: seq<Outcome>) {
    forall i, j :: 0 <= i < j < |outcomes| && j < |rows| && outcomes[i].Created?
                   && rows[j].projCode == rows[i].projCode ==>
      outcomes[j].Updated? || outcomes[j].Aborted?
  }

  /** Every created or updated row's code is an account of `s`. */
  predicate KeepsCodes(rows: seq<Row>, outcomes: seq<Outcome>, s: Store) {
    forall i :: 0 <= i < |outcomes| && i < |rows| && (outcomes[i].Created? || outcomes[i].Updated?) ==>
      rows[i].projCode in s.accounts
  }

  lemma StopsAtAbortCons(rows: seq<Row>, first: Outcome, rest: seq<Outcome>)
    requires 0 < |rows| && !first.Aborted? && StopsAtAbort(rows[1..], rest)
    ensures StopsAtAbort(rows, [first] + rest)
  {
    var o := [first] + rest;
    forall i | 0 <= i < |o| - 1 ensures !o[i].Aborted? {
      if i > 0 { assert o[i] == rest[i - 1]; }
    }
  }

  lemma NeverCreatedCons(rows: seq<Row>, first: Outcome, rest: seq<Outcome>, code: string)
    requires 0 < |rows|
    requires rows[0].projCode == code ==> first.Updated? || first.Aborted?
    requires NeverCreated(rows[1..], rest, code)
    ensures NeverCreated(rows, [first] + rest, code)
  {
    var o := [first] + rest;
    forall i | 0 <= i < |o| && i < |rows| && rows[i].projCode == code
      ensures o[i].Updated? || o[i].Aborted?
    {
      if i > 0 { assert o[i] == rest[i - 1] && rows[i] == rows[1..][i - 1]; }
    }
  }

  lemma CreatedOnceCons(rows: seq<Row>, first: Outcome, rest: seq<Outcome>)
    requires 0 < |rows|
    requires first.Created? ==> NeverCreated(rows[1..], rest, rows[0].projCode)
    requires CreatedOnce(rows[1..], rest)
    ensures CreatedOnce(rows, [first] + rest)
  {
    var o := [first] + rest;
    forall i, j | 0 <= i < j < |o| && j < |rows| && o[i].Created? && rows[j].projCode == rows[i].projCode
      ensures o[j].Updated? || o[j].Aborted?
    {
      assert o[j] == rest[j - 1] && rows[j] == rows[1..][j - 1];
      if i > 0 {
        assert o[i] == rest[i - 1] && rows[i] == rows[1..][i - 1];
      }
    }
  }

  lemma KeepsCodesCons(rows: seq<Row>, first: Outcome, rest: seq<Outcome>, s: Store)
    requires 0 < |rows|
    requires first.Created? || first.Updated? ==> rows[0].projCode in s.accounts
    requires KeepsCodes(rows[1..], rest, s)
    ensures KeepsCodes(rows, [first] + rest, s)
  {
    var o := [first] + rest;
    forall i | 0 <= i < |o| && i < |rows| && (o[i].Created? || o[i].Updated?)
      ensures rows[i].projCode in s.accounts
    {
      if i > 0 { assert o[i] == rest[i - 1] && rows[i] == rows[1..][i - 1]; }
    }
  }

  /** A run stops at the first abort: every outcome before the last is not
      an abort, and a run shorter than its rows ends with one. */
  lemma {:induction false} RunStopsAtFirstAbort(codec: Codec.Codec, s: Store, cache: IssueCache.Cache, rows: seq<Row>)
    requires Ready(s, cache)
    ensures StopsAtAbort(rows, RunFrom(codec, s, cache, rows).outcomes)
    decreases |rows|
  {
    if rows != [] {
      var step := Step(codec, s, cache, rows[0]);
      if !step.outcome.Aborted? {
        var rest := RunFrom(codec, step.store, step.cache, rows[1..]);
        RunStopsAtFirstAbort(codec, step.store, step.cache, rows[1..]);
        StopsAtAbortCons(rows, step.outcome, rest.outcomes);
        assert RunFrom(codec, s, cache, rows).outcomes == [step.outcome] + rest.outcomes;
      }
    }
  }

  /** Once a code is in the store, every later row with that code takes the
      update path: it is never created again. */
  lemma {:induction false} KnownCodeIsNeverCreated(codec: Codec.Codec, s: Store, cache: IssueCache.Cache, rows: seq<Row>, code: string)
    requires Ready(s, cache) && code in s.accounts
    ensures NeverCreated(rows, RunFrom(codec, s, cache, rows).outcomes, code)
    decreases |rows|
  {
    if rows != [] {
      var step := Step(codec, s, cache, rows[0]);
      if !step.outcome.Aborted? {
        var rest := RunFrom(codec, step.store, step.cache, rows[1..]);
        KnownCodeIsNeverCreated(codec, step.store, step.cache, rows[1..], code);
        NeverCreatedCons(rows, step.outcome, rest.outcomes, code);
        assert RunFrom(codec, s, cache, rows).outcomes == [step.outcome] + rest.outcomes;
      }
    }
  }

  /** A run creates each code at most once: any later row carrying the code
      of a created row is an update (or the run aborts there). */
  lemma {:induction false} CreatedAtMostOnce(codec: Codec.Codec, s: Store, cache: IssueCache.Cache, rows: seq<Row>)
    requires Ready(s, cache)
    ensures CreatedOnce(rows, RunFrom(codec, s, cache, rows).outcomes)
    decreases |rows|
  {
    if rows != [] {
      var step := Step(codec, s, cache, rows[0]);
      if !step.outcome.Aborted? {
        var rest := RunFrom(codec, step.store, step.cache, rows[1..]);
        CreatedAtMostOnce(codec, step.store, step.cache, rows[1..]);
        if step.outcome.Created? {
          KnownCodeIsNeverCreated(codec, step.store, step.cache, rows[1..], rows[0].projCode);
        }
        CreatedOnceCons(rows, step.outcome, rest.outcomes);
        assert RunFrom(codec, s, cache, rows).outcomes == [step.outcome] + rest.outcomes;
      }
    }
  }

  /** Every row that was created or updated leaves its code in the final store. */
  lemma {:induction false} RunKeepsEveryCode(codec: Codec.Codec, s: Store, cache: IssueCache.Cache, rows: seq<Row>)
    requires Ready(s, cache)
    ensures var r := RunFrom(codec, s, cache, rows);
            KeepsCodes(rows, r.outcomes, r.store)
    decreases |rows|
  {
    if rows != [] {
      var step := Step(codec, s, cache, rows[0]);
      if !step.outcome.Aborted? {
        var rest := RunFrom(codec, step.store, step.cache, rows[1..]);
        RunKeepsEveryCode(codec, step.store, step.cache, rows[1..]);
        assert Extends(step.store, rest.store);
        KeepsCodesCons(rows, step.outcome, rest.outcomes, rest.store);
        assert RunFrom(codec, s, cache, rows) == RunResult(rest.store, [step.outcome] + rest.outcomes);
      }
    }
  }

  /** Running the same rows again on the store a run produced updates every
      row the first run created or updated; none is created twice. */
  lemma SecondRunOnlyUpdates(codec: Codec.Codec, s: Store, rows: seq<Row>)
    requires Wf(s)
    ensures var first := Sync(codec, s, rows);
            var second := Sync(codec, first.store, rows);
            forall i :: 0 <= i < |first.outcomes| && 0 <= i < |second.outcomes|
                        && (first.outcomes[i].Created? || first.outcomes[i].Updated?) ==>
              second.outcomes[i].Updated? || second.outcomes[i].Aborted?
  {
    var first := Sync(codec, s, rows);
    var cache := IssueCache.Seed(first.store.sectors);
    RunKeepsEveryCode(codec, s, IssueCache.Seed(s.sectors), rows);
    forall i | 0 <= i < |first.outcomes| && (first.outcomes[i].Created? || first.outcomes[i].Updated?)
      ensures var second := Sync(codec, first.store, rows);
              i < |second.outcomes| ==> second.outcomes[i].Updated? || second.outcomes[i].Aborted?
    {
      KnownCodeIsNeverCreated(codec, first.store, cache, rows, rows[i].projCode);
    }
  }
}

=== FILE: text.dfy ===
/** The string operations the reconciliation engine applies to CSV fields:
    prefix, suffix and substring tests, upper-casing and whitespace
    stripping. Rows are decoded as ISO-8859-1, so every character lies in
    the range 0..255. */
module Text {

  /** Python's `str.isspace()` restricted to ISO-8859-1: tab, line feed,
      vertical tab, form feed, carriage return, the four information
      separators 0x1C-0x1F, space, NEL (0x85) and no-break space (0xA0). */
  predicate IsWhitespace(c: char) {
    var n := c as int;
    (9 <= n <= 13) || (28 <= n <= 32) || n == 0x85 || n == 0xA0
  }

  /** `\d` of Python's `re` module; within ISO-8859-1 only 0-9 are decimal digits. */
  predicate IsDigit(c: char) {
    '0' <= c <= '9'
  }

  predicate AllWhitespace(s: string) {
    forall i :: 0 <= i < |s| ==> IsWhitespace(s[i])
  }

  /** `s.startswith(p)` */
  predicate StartsWith(s: string, p: string) {
    p <= s
  }

  /** `s.endswith(p)` */
  predicate EndsWith(s: string, p: string) {
    |p| <= |s| && s[|s| - |p|..] == p
  }

  /** `sub` occurs in `s` starting at position `i`. */
  predicate OccursAt(s: string, sub: string, i: int) {
    0 <= i && i + |sub| <= |s| && s[i..i + |sub|] == sub
  }

  /** `sub in s`, scanning left to right. */
  function Contains(s: string, sub: string): bool
    decreases |s|
  {
    if |s| < |sub| then false
    else if s[..|sub|] == sub then true
    else Contains(s[1..], sub)
  }

  /** The scan finds `sub` exactly when it occurs somewhere in `s`. */
  lemma {:induction false} ContainsSpec(s: string, sub: string)
    ensures Contains(s, sub) <==> exists i :: OccursAt(s, sub, i)
    decreases |s|
  {
    if |s| < |sub| {
      assert forall i :: !OccursAt(s, sub, i);
    } else if s[..|sub|] == sub {
      assert OccursAt(s, sub, 0);
    } else {
      ContainsShift(s, sub);
      ContainsSpec(s[1..], sub);
    }
  }

  /** An occurrence in `s` that is not at position 0 is an occurrence in `s[1..]`. */
  lemma ContainsShift(s: string, sub: string)
    requires |sub| <= |s| && s[..|sub|] != sub
    ensures (exists i :: OccursAt(s, sub, i)) <==> (exists i :: OccursAt(s[1..], sub, i))
  {
    if exists i :: OccursAt(s, sub, i) {
      var i :| OccursAt(s, sub, i);
      assert i != 0;
      assert s[1..][i - 1..i - 1 + |sub|] == s[i..i + |sub|];
      assert OccursAt(s[1..], sub, i - 1);
    }
    if exists i :: OccursAt(s[1..], sub, i) {
      var i :| OccursAt(s[1..], sub, i);
      assert s[i + 1..i + 1 + |sub|] == s[1..][i..i + |sub|];
      assert OccursAt(s, sub, i + 1);
    }
  }

  /** Upper-casing of one character, ASCII letters only. */
  function UpperChar(c: char): char {
    if 'a' <= c <= 'z' then (c as int - 32) as char else c
  }

  /** `s.upper()` on ASCII letters. */
  function Upper(s: string): string {
    if s == [] then [] else [UpperChar(s[0])] + Upper(s[1..])
  }

  /** Upper-casing works character by character and keeps the length. */
  lemma {:induction false} UpperSpec(s: string)
    ensures |Upper(s)| == |s|
    ensures forall i :: 0 <= i < |s| ==> Upper(s)[i] == UpperChar(s[i])
    decreases |s|
  {
    if s != [] {
      UpperSpec(s[1..]);
      forall i | 0 <= i < |s| ensures Upper(s)[i] == UpperChar(s[i]) {
        if i > 0 { assert s[i] == s[1..][i - 1]; }
      }
    }
  }

  /** `a.upper() == b.upper()`, which is also how `iexact` is modelled. */
  predicate EqualIgnoringCase(a: string, b: string) {
    Upper(a) == Upper(b)
  }

  /** `s.lstrip()`: drop leading whitespace. */
  function TrimStart(s: string): string {
    if s != [] && IsWhitespace(s[0]) then TrimStart(s[1..]) else s
  }

  /** `lstrip()` removes a whitespace prefix and nothing more. */
  lemma {:induction false} TrimStartSpec(s: string)
    ensures var r := TrimStart(s);
            && |r| <= |s| && r == s[|s| - |r|..]
            && AllWhitespace(s[..|s| - |r|])
            && (r != [] ==> !IsWhitespace(r[0]))
    decreases |s|
  {
    if s != [] && IsWhitespace(s[0]) {
      TrimStartSpec(s[1..]);
      var r := TrimStart(s[1..]);
      assert s[1..][|s| - 1 - |r|..] == s[|s| - |r|..];
      var p := s[..|s| - |r|];
      forall i | 0 <= i < |p| ensures IsWhitespace(p[i]) {
        if i > 0 { assert p[i] == s[1..][..|s| - 1 - |r|][i - 1]; }
      }
    }
  }

  /** `s.rstrip()`: drop trailing whitespace. */
  function TrimEnd(s: string): string {
    if s != [] && IsWhitespace(s[|s| - 1]) then TrimEnd(s[..|s| - 1]) else s
  }

  /** `rstrip()` removes a whitespace suffix and nothing more. */
  lemma {:induction false} TrimEndSpec(s: string)
    ensures var r := TrimEnd(s);
            && |r| <= |s| && r == s[..|r|]
            && AllWhitespace(s[|r|..])
            && (r != [] ==> !IsWhitespace(r[|r| - 1]))
    decreases |s|
  {
    if s != [] && IsWhitespace(s[|s| - 1]) {
      TrimEndSpec(s[..|s| - 1]);
      var r := TrimEnd(s[..|s| - 1]);
      assert s[..|s| - 1][..|r|] == s[..|r|];
      var q := s[|r|..];
      forall i | 0 <= i < |q| ensures IsWhitespace(q[i]) {
        if i < |s| - 1 - |r| { assert q[i] == s[..|s| - 1][|r|..][i]; }
      }
    }
  }

  /** `r` is the part of `s` from `lo` on, with only whitespace before and after it. */
  predicate Framed(s: string, r: string, lo: int) {
    && 0 <= lo && lo + |r| <= |s| && r == s[lo..lo + |r|]
    && AllWhitespace(s[..lo]) && AllWhitespace(s[lo + |r|..])
  }

  /** `s.strip()`: the infix of `s` left after removing whitespace at both ends. */
  function Strip(s: string): string {
    TrimEnd(TrimStart(s))
  }

  /** `strip()` leaves the infix of `s` between a whitespace prefix and a
      whitespace suffix, and that infix neither starts nor ends with
      whitespace. */
  lemma StripSpec(s: string)
    ensures var r := Strip(s);
            && (r != [] ==> !IsWhitespace(r[0]) && !IsWhitespace(r[|r| - 1]))
            && exists lo :: Framed(s, r, lo)
  {
    var t := TrimStart(s);
    TrimStartSpec(s);
    TrimEndSpec(t);
    var r := TrimEnd(t);
    var lo := |s| - |t|;
    assert s[lo..lo + |r|] == t[..|r|];
    assert s[lo + |r|..] == t[|r|..];
    assert Framed(s, r, lo);
  }

  /** Leading whitespace makes no difference to `TrimStart`. */
  lemma {:induction false} TrimStartPadded(w: string, x: string)
    requires AllWhitespace(w)
    ensures TrimStart(w + x) == TrimStart(x)
    decreases |w|
  {
    if w != [] {
      assert IsWhitespace((w + x)[0]);
      assert (w + x)[1..] == w[1..] + x;
      TrimStartPadded(w[1..], x);
    } else {
      assert w + x == x;
    }
  }

  /** Trailing whitespace makes no difference to `TrimEnd`. */
  lemma {:induction false} TrimEndPadded(x: string, w: string)
    requires AllWhitespace(w)
    ensures TrimEnd(x + w) == TrimEnd(x)
    decreases |w|
  {
    if w != [] {
      assert (x + w)[..|x + w| - 1] == x + w[..|w| - 1];
      TrimEndPadded(x, w[..|w| - 1]);
    } else {
      assert x + w == x;
    }
  }

  /** Trailing whitespace survives `TrimStart` unless everything is whitespace. */
  lemma {:induction false} TrimStartKeepsTail(x: string, w: string)
    requires AllWhitespace(w)
    ensures TrimStart(x + w) == if AllWhitespace(x) then [] else TrimStart(x) + w
    decreases |x|
  {
    if x == [] {
      assert x + w == w;
      TrimStartSpec(w);
    } else if IsWhitespace(x[0]) {
      assert (x + w)[1..] == x[1..] + w;
      TrimStartKeepsTail(x[1..], w);
      assert AllWhitespace(x) <==> AllWhitespace(x[1..]) by {
        if AllWhitespace(x[1..]) {
          forall i | 0 <= i < |x| ensures IsWhitespace(x[i]) {
            if i > 0 { assert x[i] == x[1..][i - 1]; }
          }
        }
      }
    } else {
      assert !AllWhitespace(x);
    }
  }

  /** `strip()` ignores whitespace padding on either side. */
  lemma StripPadded(w1: string, x: string, w2: string)
    requires AllWhitespace(w1) && AllWhitespace(w2)
    ensures Strip(w1 + x + w2) == Strip(x)
  {
    assert w1 + x + w2 == w1 + (x + w2);
    TrimStartPadded(w1, x + w2);
    TrimStartKeepsTail(x, w2);
    if AllWhitespace(x) {
      TrimStartSpec(x);
    } else {
      TrimEndPadded(TrimStart(x), w2);
    }
  }

  predicate CommaFree(s: string) {
    forall i :: 0 <= i < |s| ==> s[i] != ','
  }

  /** `s.replace(",", "")`: `s` with every comma removed. */
  function RemoveCommas(s: string): string {
    if s == [] then []
    else if s[0] == ',' then RemoveCommas(s[1..])
    else [s[0]] + RemoveCommas(s[1..])
  }

  /** The characters that survive comma removal, counted. */
  lemma {:induction false} RemoveCommasCounts(s: string)
    ensures multiset(RemoveCommas(s)) == multiset(s)[',' := 0]
    ensures |RemoveCommas(s)| == |s| - multiset(s)[',']
    decreases |s|
  {
    if s != [] {
      RemoveCommasCounts(s[1..]);
      assert s == [s[0]] + s[1..];
    }
  }

  /** Every comma is deleted and every other character kept, with its
      multiplicity; so no comma survives, and a comma-free text comes back
      unchanged. */
  lemma {:induction false} RemoveCommasSpec(s: string)
    ensures multiset(RemoveCommas(s)) == multiset(s)[',' := 0]
    ensures |RemoveCommas(s)| == |s| - multiset(s)[',']
    ensures CommaFree(RemoveCommas(s))
    ensures CommaFree(s) ==> RemoveCommas(s) == s
    decreases |s|
  {
    RemoveCommasCounts(s);
    if s != [] {
      RemoveCommasSpec(s[1..]);
      var r := RemoveCommas(s[1..]);
      if s[0] != ',' {
        assert forall i :: 1 <= i < |[s[0]] + r| ==> ([s[0]] + r)[i] == r[i - 1];
        if CommaFree(s) {
          assert CommaFree(s[1..]) by {
            forall i | 0 <= i < |s| - 1 ensures s[1..][i] != ',' { assert s[1..][i] == s[i + 1]; }
          }
          assert s == [s[0]] + s[1..];
        }
      }
    }
  }

  /** Removing commas works piecewise: it keeps every other character in order. */
  lemma {:induction false} RemoveCommasAppend(a: string, b: string)
    ensures RemoveCommas(a + b) == RemoveCommas(a) + RemoveCommas(b)
    decreases |a|
  {
    if a == [] {
      assert a + b == b;
    } else {
      assert (a + b)[1..] == a[1..] + b;
      RemoveCommasAppend(a[1..], b);
    }
  }
}

=== FILE: wrappers.dfy ===
/** Small generic helpers shared by the rest of the model. */
module Wrappers {

  /** A value that may be absent: a failed lookup, a field that did not parse. */
  datatype Option<+T> = None | Some(value: T)

  /** The index of the first element of `xs` that satisfies `p`, if any.
      This is the "first match wins" search behind both the ordered
      classifier rules and Django's `.filter(...).first()`. */
  function IndexOfFirst<T>(xs: seq<T>, p: T -> bool): (r: Option<nat>)
    ensures r.None? <==> forall i :: 0 <= i < |xs| ==> !p(xs[i])
    ensures r.Some? ==> r.value < |xs| && p(xs[r.value])
    ensures r.Some? ==> forall j :: 0 <= j < r.value ==> !p(xs[j])
  {
    if xs == [] then None
    else if p(xs[0]) then Some(0)
    else
      match IndexOfFirst(xs[1..], p)
      case None => None
      case Some(i) => Some(i + 1)
  }
}
